=== FILE: README.md ===
# express-auth-example: credential store and request handling, in Dafny

This project models the core of an Express authentication example server.
It covers:

- the in-memory user store (`makeTestDbApi`) and `validateDbApi`;
- the shared store test suite, run against the in-memory store;
- the JSON Web Token signup and login handlers, and the decision of the
  middleware that guards the JWT routes;
- the bearer-token ("simple token") login and `/secure` check;
- the plain login validator;
- the helpers in the utility module: the token lifetime, the response
  builder, the cookie accessor and the random-token generator.

Everything is a pure function over immutable values. The store is a
`seq` of records, and a record is a `map` from field name to a JavaScript
primitive value. Each handler returns the store or token set it leaves
behind together with its response. bcrypt and jsonwebtoken appear as four
uninterpreted functions in a `Crypto` value. The random bytes are a
parameter. Environment variables are parameters too: `TOKEN_EXPIRATION`
is passed in, and `JWT_SECRET` is folded into the `Crypto` functions.

Modules, one per source file or concern:

| module | file | models |
|---|---|---|
| `Js` | js.dfy | primitive values, truthiness, `${}` stringification, `String.prototype.split(sep)[1]` |
| `MemoryStore` | services.dfy | `makeTestDbApi`, `validateDbApi` |
| `Conformance` | conformance.dfy | the four store scenarios of the database tests |
| `Utils` | utils.dfy | `ONE_HOUR_IN_SECONDS`, `getTokenExp`, `makeResponse`, `getCookie` |
| `RandomToken` | random.dfy | `generateRandom`, including base64 encoding |
| `JwtRoutes` | jwt.dfy | `handleSignUp`, `handleLogin`, `jwtMiddleware` |
| `BasicRoutes` | basic.dfy | bearer-token `handleLogin`, `/secure`, the token set |
| `LoginRoute` | login.dfy | the plain login route's `makeResponse` and `handleLogin` |

The model follows the code, including where it is weaker than a production
credential store would be:

- `insertOne` does not enforce unique usernames. Uniqueness holds only
  because signup looks the user up first, one request at a time
  (`JwtRoutes.SignUpKeepsUsernamesUnique`).
- `deleteOne` removes every matching record and always reports
  `deletedCount: 1`.
- A duplicate signup and an unknown login user answer 400, not 401.
- The session manager, logout and revocation are not part of this model;
  their router is not among the modelled files.

A query is given as its list of fields in `Object.keys` order. Only the
first field is used. An empty query has first key `undefined`; a property
access turns that key into the name "undefined", so the empty query matches
the records that have no field of that name.

Two imports are taken to resolve to the modelled files. First, the
bearer-token routes (server/routes/basic.js) import `./utils`, and the
server mounts them as `./routes/simpleToken`; the model takes both to mean
server/routes/basic.js with the helpers of server/utils.js, which the JWT
routes import as `../utils`. Second, the store test suite imports
`makeTestDbApi` from `../db`; the model takes that to be the in-memory
store of server/services.js.

## Model

| member | source | states |
|---|---|---|
| `MemoryStore.FindOne` | server/services.js:14-19 | resolves to null exactly when no record's value at the query's first key equals the query's value; otherwise to the earliest matching record |
| `MemoryStore.FindOnEmpty` | server/services.js:14-19 | on an empty store every query finds nothing |
| `MemoryStore.FindIgnoresLaterKeys` | server/services.js:16-17 | query fields after the first never change what is found |
| `MemoryStore.InsertOne` | server/services.js:9-12 | the store grows by exactly one record at the end, the earlier records are untouched, and the inserted record is returned as given |
| `MemoryStore.InsertThenFind` | server/services.js:9-19 | after an insert, a lookup by any field of the new record finds it, unless an older record already had that value, in which case the older one is still found |
| `MemoryStore.InsertAllowsDuplicates` | server/services.js:9-12 | inserting the same record twice leaves two copies: no uniqueness check |
| `MemoryStore.Merge` | server/services.js:27 | the spread merge has the union of both key sets; update fields win and the other entry fields, such as `hash`, are kept |
| `MemoryStore.UpdateOne` | server/services.js:21-32 | modifiedCount is 1 exactly when some record matches; only the first matching record changes, to its merge with the update; with no match it reports 0 and the store is unchanged |
| `MemoryStore.UpdateThenFind` | server/services.js:21-32 | after a successful update that leaves the queried field alone, the same query finds the merged record |
| `MemoryStore.Remove` | server/services.js:36 | every record that does not match keeps its number of occurrences and every matching one has none left; the store is unchanged when nothing matches |
| `MemoryStore.RemoveAppend` | server/services.js:36 | the filter of a concatenation is the concatenation of the filters, so the kept records stay in their original order |
| `MemoryStore.RemoveOne` | server/services.js:36 | a single record is kept exactly when it does not match |
| `MemoryStore.DeleteOne` | server/services.js:34-38 | every matching record is removed, every other record keeps its number of occurrences, and deletedCount is 1 even when nothing matched |
| `MemoryStore.DeleteThenFind` | server/services.js:34-38 | after a delete, the same query finds nothing |
| `MemoryStore.DeleteIdempotent` | server/services.js:34-38 | deleting again with the same query changes nothing |
| `MemoryStore.CheckAll` | server/services.js:145-150 | the check passes exactly when every required name is a function; otherwise it fails naming the first missing one in list order |
| `MemoryStore.ValidateDbApi` | server/services.js:144-152 | succeeds exactly when updateOne, findOne, insertOne and deleteOne are all functions, and then returns the api unchanged |
| `MemoryStore.TestDbApiIsValid` | server/services.js:40-42 | the object the in-memory store returns passes validation |
| `Conformance.InsertsAndFinds` | server/__tests__/db.test.js:12-23 | the in-memory store passes "inserts and finds": nothing in an empty store, then the record is found by username and by token |
| `Conformance.Updates` | server/__tests__/db.test.js:25-32 | the in-memory store passes "updates": count 1, the token is added and the hash kept |
| `Conformance.UpdateNotFound` | server/__tests__/db.test.js:34-37 | an update with no match reports 0 and leaves the store empty |
| `Conformance.Deletes` | server/__tests__/db.test.js:39-45 | after the delete the record is not found |
| `Utils.TokenExp` | server/utils.js:4-8 | the lifetime is the environment value when it is set and non-empty, and 3600 seconds otherwise |
| `Utils.TokenExpAlwaysSet` | server/utils.js:6-8 | the lifetime is truthy whatever the environment holds, so `expiresIn` is always set |
| `Utils.MakeResponse` | server/utils.js:10-14 | message and token are passed through; the status is 200 when none is given |
| `Utils.MakeResponseDropsOtherFields` | server/utils.js:10-14 | fields other than message, token and status, such as `expires_in`, have no effect on the response |
| `Utils.GetCookie` | server/utils.js:27-30 | the first set-cookie header when there is one, undefined otherwise |
| `Utils.GetCookieMissingIsEmpty` | server/utils.js:28 | a missing set-cookie header reads as an empty list |
| `Utils.GetCookieIgnoresLater` | server/utils.js:28 | cookies after the first never change the result |
| `RandomToken.Base64` | server/utils.js:17-19 | the base64 text has 4 characters per started group of 3 bytes, all from the base64 alphabet or padding |
| `RandomToken.Strip` | server/utils.js:20 | the result contains no '/', '+' or '=' and is no longer than the input |
| `RandomToken.StripOne` | server/utils.js:20 | a single character is deleted exactly when it is '/', '+' or '=', and kept otherwise |
| `RandomToken.StripAppend` | server/utils.js:20 | stripping distributes over concatenation |
| `RandomToken.StripKeepsPlain` | server/utils.js:20 | a string without '/', '+' or '=' is left as it is |
| `RandomToken.StripIdempotent` | server/utils.js:20 | stripping a stripped string changes nothing |
| `RandomToken.Slice` | server/utils.js:22 | the slice is a prefix of its input, at most len long, and exactly len long unless it is the whole input |
| `RandomToken.PostProcess` | server/utils.js:18-22 | the output is a prefix of the stripped encoding with no '/', '+' or '='; it has exactly len characters iff the stripped encoding is that long, and is the whole stripped encoding otherwise |
| `RandomToken.GenerateRandomAsWritten` | server/utils.js:16-25 | the token is the first len characters of the stripped base64 of the random bytes, or all of it when it is shorter; it holds letters and digits only, and is non-empty when len is not a multiple of 3 |
| `RandomToken.StripBase64` | server/utils.js:19-20 | stripping base64 text leaves only letters and digits |
| `RandomToken.IncompleteGroupKeepsDigit` | server/utils.js:19-20 | when the byte count is not a multiple of 3, the final partial group leaves a digit that survives stripping, so the stripped text is non-empty |
| `RandomToken.AsWrittenCanFallShort` | server/utils.js:21-22 | some random bytes yield a token shorter than requested: "8" for 50 bytes, "" for 3 |
| `RandomToken.UrlSafeLength` | server/utils.js:21 | the base64url text of n bytes has at least n characters |
| `RandomToken.GenerateRandom` | server/utils.js:16-25 | the corrected generator returns exactly len URL-safe characters, none of them '/', '+', '=' or a space |
| `JwtRoutes.NewUser` | server/routes/jwt.js:29 | the stored record has exactly the fields username and hash, and no password |
| `JwtRoutes.SignUp` | server/routes/jwt.js:11-35 | a missing field gives 401 'Username and password are both required.'; an existing username gives 400 'Username X is unavailable!'; both leave the store unchanged; otherwise exactly one record {username, hash} is appended and the response is 200 with the token signed for the username; the store changes iff the status is 200 |
| `JwtRoutes.Login` | server/routes/jwt.js:37-66 | the store is never changed; a missing field gives 401; an unknown username gives 400 'User X does not exist'; the status is 200 exactly when the first record with that username has a hash the password matches, and then the response carries the token signed for the username |
| `JwtRoutes.WrongPasswordRefused` | server/routes/jwt.js:54-60 | a password the compare function rejects gives 401 'Wrong password for user X' and leaves the store unchanged |
| `JwtRoutes.SignUpKeepsUsernamesUnique` | server/routes/jwt.js:19-29 | sequential signups keep usernames unique in the store |
| `JwtRoutes.SecondSignUpConflicts` | server/routes/jwt.js:19-26 | once a username has signed up, a later signup for it gets 400 and leaves the store unchanged |
| `JwtRoutes.SignUpThenLogin` | server/routes/jwt.js:11-66 | when compare accepts a password against its own hash, a user can log in right after signing up and gets a token signed for their username |
| `JwtRoutes.TryVerify` | server/routes/jwt.js:75-85 | the request proceeds exactly when a header is present and verification of the text after 'Bearer ' succeeds, and then as the decoded username; every failure is a 403 |
| `JwtRoutes.MiddlewareAsWritten` | server/routes/jwt.js:68-86 | the middleware calls next once or twice; twice exactly when the header is missing or empty, the first call then being the 403 "header required"; the last call is the outcome of the verification block |
| `JwtRoutes.MiddlewareCallsNextTwice` | server/routes/jwt.js:70-85 | without a header, next is called twice: once with "header required" and once with the error from the catch |
| `JwtRoutes.Middleware` | server/routes/jwt.js:68-86 | the corrected middleware makes exactly one decision: a missing or empty header is refused, otherwise the request proceeds as the decoded username iff verification succeeds, and every refusal is a 403 |
| `JwtRoutes.NoBearerRefused` | server/routes/jwt.js:70-84 | when verify rejects a missing token, a header without 'Bearer ' is refused by the corrected middleware; as written, an empty header is refused twice and any other such header once |
| `JwtRoutes.EmptyBearerRefused` | server/routes/jwt.js:77-84 | when verify rejects an empty token, the header 'Bearer ' alone is refused with 403 by both middlewares |
| `JwtRoutes.MiddlewareAgreesOnPresentHeader` | server/routes/jwt.js:75-85 | with a non-empty header, the original and the corrected middleware agree |
| `Js.SplitSecond` | server/routes/basic.js:32 | `split('Bearer ')[1]` is undefined exactly when the header has no 'Bearer '; otherwise it is the text after the first occurrence, up to the next occurrence or the end |
| `Js.SplitPrefixed` | server/routes/basic.js:32 | splitting 'Bearer ' + t gives back t when t does not contain 'Bearer ' |
| `Js.NumberRoundTrip` | server/routes/login.js:8 | the text a template literal makes of a safe integer reads back as that integer |
| `BasicRoutes.Login` | server/routes/basic.js:9-21 | the status is 200 exactly when both fields are truthy; a refusal gives 401 'Username and password are both required.' and leaves the set unchanged; success adds exactly the returned token, the one generateRandom(50) makes from the random bytes, to the set; that token is 1 to 50 letters and digits |
| `BasicRoutes.BearerToken` | server/routes/basic.js:32 | the token is undefined for a missing header or one without 'Bearer ', and the empty string for an empty header; otherwise it is the text after the first 'Bearer ', up to the next one or the end |
| `BasicRoutes.Secure` | server/routes/basic.js:29-37 | the reply is 'hi' exactly when the bearer token is in the set, and 403 'Unauthorized!' otherwise, including when the header is missing |
| `BasicRoutes.SecureRefusesWithoutBearer` | server/routes/basic.js:32-34 | with only issued tokens in the set, a missing header, an empty header or one without 'Bearer ' is refused with 403 |
| `BasicRoutes.IssuedTokenAccepted` | server/routes/basic.js:16-36 | the token a login returns, sent back as 'Bearer ' + token, is accepted |
| `BasicRoutes.RunGrows` | server/routes/basic.js:7-19 | the token set only grows over any sequence of requests |
| `BasicRoutes.IssuedBy` | server/routes/basic.js:13-19 | a request issues at most one token, and every issued token is 1 to 50 letters and digits |
| `BasicRoutes.StepAddsIssued` | server/routes/basic.js:9-37 | one request adds exactly the token it issues: the generated token for a successful login, nothing for a refused login or a /secure request |
| `BasicRoutes.RunAddsIssued` | server/routes/basic.js:7-37 | after any sequence of requests the set is the initial set plus exactly the tokens the successful logins issued |
| `BasicRoutes.AllIssuedWellFormed` | server/routes/basic.js:16-19 | every token any sequence of requests issues is 1 to 50 letters and digits |
| `BasicRoutes.StepKeepsTokensWellFormed` | server/routes/basic.js:16-19 | after one request every token in the set is still 1 to 50 letters and digits |
| `BasicRoutes.RunKeepsTokensWellFormed` | server/routes/basic.js:7-37 | after any sequence of requests every token in the set is still 1 to 50 letters and digits |
| `BasicRoutes.AcceptedStaysAccepted` | server/routes/basic.js:29-36 | a header that /secure accepts once is accepted after any later requests |
| `LoginRoute.MakeResponse` | server/routes/login.js:5 | the message is passed through and the status is 200 when none is given |
| `LoginRoute.MakeResponseAgreesWithUtils` | server/routes/login.js:5 | this route's makeResponse gives the same message and status as the shared makeResponse given the same two fields |
| `LoginRoute.HandleLogin` | server/routes/login.js:7-14 | the status is 200 exactly when both fields are truthy, with the message 'Username: U \| Password: P'; otherwise 401 'Username and password are both required.' |
| `LoginRoute.EchoFrames` | server/routes/login.js:8 | the echoed message starts with the username and ends with the password |

## Findings

| source | as written | input that shows it | evidently intended | confidence | as-written member | corrected member |
|---|---|---|---|---|---|---|
| server/routes/jwt.js:70-74 | after `next(error)` for a missing header the function does not return, so the `try` block runs, `undefined.split` throws, and the `catch` calls `next` again | a request without an Authorization header: `next` gets two errors | `return next(error)`: one decision per request | high, not executed | `JwtRoutes.MiddlewareCallsNextTwice` | `JwtRoutes.Middleware` |
| server/utils.js:20-22 | '/', '+' and '=' are removed from the base64 text before slicing, so fewer than `len` characters can remain, contrary to the comment that the encoding is always long enough | `len` 50 with random bytes 251 239 190 repeated 16 times then 251 239: the token is "8" | a token of exactly `len` characters, e.g. from base64url, whose alphabet needs no stripping | medium, not executed | `RandomToken.AsWrittenCanFallShort` | `RandomToken.GenerateRandom` |

`JwtRoutes.MiddlewareAsWritten` and `RandomToken.GenerateRandomAsWritten`
model the code as written. The bearer-token login uses the generator as
written. Its tokens can be shorter than 50 characters, but never empty,
because 50 is not a multiple of 3 (`RandomToken.IncompleteGroupKeepsDigit`).
The properties of the token set use only that.

## Left out

- `makeMongoApi`, `makePgApi`, `makeCollection`, `makeTable`, `makeMongoClient`, `makePgClient`: thin wrappers over the MongoDB and PostgreSQL drivers plus connection I/O; their behaviour lives in the databases.
- `closeConnection` of the in-memory store: a no-op.
- JwtRoutes.Crypto: one `Crypto` value stands for bcrypt and jsonwebtoken at one instant, with the salt and the clock fixed. The source draws a fresh random salt on every `bcrypt.hash`. `jwt.sign` embeds the issue time and the expiry, and `jwt.verify` checks the expiry against the current clock. So in the model two signups with one password store the same hash, and a token that verifies once verifies forever. Lemmas that pass one `crypto` to several calls, such as `JwtRoutes.SignUpThenLogin`, whose login token equals the signup token, assume those calls run within the same second.
- RandomToken.Slice: strings are sequences of Unicode code points, while JavaScript's `.slice` and `.length` count UTF-16 code units. `Slice`, `Strip` and `PostProcess` agree with JavaScript on text in the Basic Multilingual Plane, which includes all base64 text, the only text `generateRandom` slices. They differ on characters outside it, such as emoji.
- The Express router registrations, `res.status(...).json(...)`, the messages of the JWT `GET /login` and `POST /secure` routes, and `console.log`: HTTP wiring and logging.
- bcrypt and jsonwebtoken internals: modelled as uninterpreted functions. Promise rejections from `bcrypt.compare`, `jwt.sign` or `jwt.verify` outside the middleware's `try` are not modelled. How `jwt.sign` reads a string `expiresIn` is library behaviour.
- `crypto.randomBytes`: its output is a parameter.
- Concurrency: handlers run one at a time to completion. The find-then-insert in signup is not atomic, and no race safety is claimed.
- JavaScript numbers are the safe integers, of magnitude at most 2^53 - 1: no fractions, NaN or -0, and no larger values, which JavaScript stores inexactly and writes in exponent notation from 10^21 on (`Js.Stringify` writes every digit). Record fields hold primitive values only, never objects.
- Js.Get: reads own properties only. Properties inherited from `Object.prototype`, such as `constructor` or `toString`, are not modelled, so a query on such a key matches differently in JavaScript.
- MemoryStore.InsertOne: stores a value. The source stores the caller's object by reference, so a later change to that object would show in the store; the handlers never make one.
- The session router, logout and revocation: server/routes/session.js is not part of this model.
- Js.SplitSecond: models `split` only for a non-empty separator, the only kind the routes use.

=== FILE: basic.dfy ===
/** The bearer-token routes: `POST /login` issues a random token into a
    module-wide set, and `POST /secure` accepts a request whose
    `Authorization: Bearer <token>` header names a token in that set.
    The set is passed in and returned explicitly. */
module BasicRoutes {
  import opened Js
  import opened Utils
  import opened RandomToken

  const TokenLength: nat := 50

  const RequiredMessage: string := "Username and password are both required."

  /** The output of `crypto.randomBytes(50)`. */
  type TokenBytes = s: seq<Byte> | |s| == TokenLength
    witness seq(TokenLength, _ => 0)

  datatype LoginResult = LoginResult(tokens: set<string>, response: Response)

  /** A token `generateRandom(50)` can return: one to 50 letters and digits.
      The stripping can shorten it, but never to nothing. */
  predicate IsToken(t: string)
  {
    0 < |t| <= TokenLength && forall i :: 0 <= i < |t| ==> IsAlphaNumeric(t[i])
  }

  /** `handleLogin(body)`: on success the `generateRandom(50)` token joins the
      set and is returned. The handler also passes `expires_in`, which
      `makeResponse` drops. */
  function Login(body: Record, tokens: set<string>, random: TokenBytes): (r: LoginResult)
    ensures r.response.status == Num(200) <==> Truthy(Get(body, "username")) && Truthy(Get(body, "password"))
    ensures r.response.status != Num(200) ==>
      r == LoginResult(tokens, Response(Str(RequiredMessage), Num(401), Undefined))
    ensures r.response.status == Num(200) ==>
      && r.response.token.Str?
      && r.response.token.s == GenerateRandomAsWritten(TokenLength, random)
      && r.tokens == tokens + {r.response.token.s}
      && IsToken(r.response.token.s)
      && r.response.message == Undefined
  {
    if !Truthy(Get(body, "username")) || !Truthy(Get(body, "password")) then
      LoginResult(tokens, MakeResponse(map["message" := Str(RequiredMessage), "status" := Num(401)]))
    else
      var token := GenerateRandomAsWritten(TokenLength, random);
      LoginResult(tokens + {token},
        MakeResponse(map["token" := Str(token), "expires_in" := Num(OneHourInSeconds)]))
  }

  /** `authorization && authorization.split('Bearer ')[1]`: `undefined` for a
      missing header, the empty header itself when it is empty, and otherwise
      the text after the first "Bearer " (up to any second one). */
  function BearerToken(authorization: Option<string>): (t: Option<string>)
    ensures authorization.None? ==> t.None?
    ensures authorization == Some("") ==> t == Some("")
    ensures authorization.Some? && authorization.value != "" ==>
      (t.None? <==> forall j :: !OccursAt(authorization.value, "Bearer ", j))
    ensures authorization.Some? && authorization.value != "" && t.Some? ==>
      exists i :: SplitsAt(authorization.value, "Bearer ", i, t.value)
  {
    match authorization
    case None => None
    case Some(h) => if h == "" then Some("") else SplitSecond(h, "Bearer ")
  }

  datatype Reply = Reply(status: int, message: string)

  /** `POST /secure`: "hi" when the bearer token is in the set, otherwise 403
      "Unauthorized!". */
  function Secure(authorization: Option<string>, tokens: set<string>): (r: Reply)
    ensures r == Reply(200, "hi") || r == Reply(403, "Unauthorized!")
    ensures r.status == 200 <==> BearerToken(authorization).Some? && BearerToken(authorization).value in tokens
    ensures authorization.None? ==> r == Reply(403, "Unauthorized!")
  {
    var token := BearerToken(authorization);
    if token.Some? && token.value in tokens then Reply(200, "hi") else Reply(403, "Unauthorized!")
  }

  /** Every token in the set has the shape `generateRandom(50)` gives. */
  predicate WellFormedTokens(tokens: set<string>)
  {
    forall t :: t in tokens ==> IsToken(t)
  }

  /** With only issued tokens in the set, a missing header, an empty one, or
      one without "Bearer " is refused. */
  lemma SecureRefusesWithoutBearer(authorization: Option<string>, tokens: set<string>)
    requires WellFormedTokens(tokens)
    requires authorization.Some? ==> forall j :: !OccursAt(authorization.value, "Bearer ", j)
    ensures Secure(authorization, tokens) == Reply(403, "Unauthorized!")
  {
  }

  /** A string without a space does not contain "Bearer ". */
  lemma NoSpaceNoBearer(t: string)
    requires forall i :: 0 <= i < |t| ==> t[i] != ' '
    ensures forall j :: !OccursAt(t, "Bearer ", j)
  {
    forall j | 0 <= j && j + 7 <= |t| ensures !OccursAt(t, "Bearer ", j) {
      assert t[j..j + 7][6] == t[j + 6] != ' ';
      assert "Bearer "[6] == ' ';
    }
  }

  /** The token a successful login returns is accepted by `/secure` when sent
      back as `Bearer <token>`. */
  lemma IssuedTokenAccepted(body: Record, tokens: set<string>, random: TokenBytes)
    requires Login(body, tokens, random).response.status == Num(200)
    ensures var r := Login(body, tokens, random);
      Secure(Some("Bearer " + r.response.token.s), r.tokens) == Reply(200, "hi")
  {
    var token := GenerateRandomAsWritten(TokenLength, random);
    NoSpaceNoBearer(token);
    SplitPrefixed("Bearer ", token);
  }

  // ---------------------------------------------------------------------------
  // The token set over a sequence of requests
  // ---------------------------------------------------------------------------

  datatype Request = LoginRequest(body: Record, random: TokenBytes) | SecureRequest(authorization: Option<string>)

  /** The token set after serving one request. */
  function Step(tokens: set<string>, request: Request): set<string>
  {
    match request
    case LoginRequest(body, random) => Login(body, tokens, random).tokens
    case SecureRequest(_) => tokens
  }

  /** The token set after serving `requests` in order. */
  function Run(tokens: set<string>, requests: seq<Request>): set<string>
    decreases |requests|
  {
    if |requests| == 0 then tokens else Run(Step(tokens, requests[0]), requests[1..])
  }

  /** The set only grows. */
  lemma {:induction false} RunGrows(tokens: set<string>, requests: seq<Request>)
    ensures tokens <= Run(tokens, requests)
    decreases |requests|
  {
    if |requests| > 0 {
      RunGrows(Step(tokens, requests[0]), requests[1..]);
    }
  }

  /** The token a request adds: the one a successful login issues, and
      none for a refused login or a `/secure` request. */
  function IssuedBy(request: Request): (r: set<string>)
    ensures |r| <= 1
    ensures forall t :: t in r ==> IsToken(t)
  {
    match request
    case LoginRequest(body, random) =>
      if Truthy(Get(body, "username")) && Truthy(Get(body, "password"))
      then {GenerateRandomAsWritten(TokenLength, random)} else {}
    case SecureRequest(_) => {}
  }

  /** Every token the requests issue, in any order. */
  function AllIssued(requests: seq<Request>): set<string>
    decreases |requests|
  {
    if |requests| == 0 then {} else IssuedBy(requests[0]) + AllIssued(requests[1..])
  }

  /** One request adds exactly the token it issues, and nothing else. */
  lemma StepAddsIssued(tokens: set<string>, request: Request)
    ensures Step(tokens, request) == tokens + IssuedBy(request)
  {
  }

  /** After any requests the set is the initial set plus exactly the tokens
      the successful logins among them issued. */
  lemma {:induction false} RunAddsIssued(tokens: set<string>, requests: seq<Request>)
    ensures Run(tokens, requests) == tokens + AllIssued(requests)
    decreases |requests|
  {
    if |requests| > 0 {
      StepAddsIssued(tokens, requests[0]);
      RunAddsIssued(Step(tokens, requests[0]), requests[1..]);
    }
  }

  lemma {:induction false} AllIssuedWellFormed(requests: seq<Request>)
    ensures WellFormedTokens(AllIssued(requests))
    decreases |requests|
  {
    if |requests| > 0 {
      AllIssuedWellFormed(requests[1..]);
    }
  }

  /** One request keeps every token in the set shaped like a generated one. */
  lemma StepKeepsTokensWellFormed(tokens: set<string>, request: Request)
    requires WellFormedTokens(tokens)
    ensures WellFormedTokens(Step(tokens, request))
  {
    StepAddsIssued(tokens, request);
  }

  /** So does any sequence of requests. */
  lemma RunKeepsTokensWellFormed(tokens: set<string>, requests: seq<Request>)
    requires WellFormedTokens(tokens)
    ensures WellFormedTokens(Run(tokens, requests))
  {
    RunAddsIssued(tokens, requests);
    AllIssuedWellFormed(requests);
  }

  /** A header `/secure` accepts once is accepted by every later `/secure`. */
  lemma AcceptedStaysAccepted(authorization: Option<string>, tokens: set<string>, requests: seq<Request>)
    requires Secure(authorization, tokens).status == 200
    ensures Secure(authorization, Run(tokens, requests)) == Reply(200, "hi")
  {
    RunGrows(tokens, requests);
  }
}

=== FILE: conformance.dfy ===
/** The behavioural suite every store adapter runs, instantiated for the
    in-memory store. Each scenario starts from a fresh, empty store. */
module Conformance {
  import opened Js
  import opened MemoryStore

  /** "inserts and finds": nothing is found in an empty store; a record is
      then found both by its username and by its token. */
  lemma InsertsAndFinds()
    ensures FindOne([], [("foo", Str("bar"))]) == None
    ensures var rec := map["username" := Str("bar"), "token" := Str("abc"), "hash" := Str("qux")];
      var users := InsertOne([], rec).store;
      && FindOne(users, [("username", Str("bar"))]) == Some(rec)
      && FindOne(users, [("token", Str("abc"))]) == Some(rec)
  {
    FindOnEmpty([("foo", Str("bar"))]);
    var rec := map["username" := Str("bar"), "token" := Str("abc"), "hash" := Str("qux")];
    InsertIntoEmptyThenFind(rec, "username");
    InsertIntoEmptyThenFind(rec, "token");
  }

  /** "updates": the update reports one modification, adds the token and
      keeps the hash. */
  lemma Updates()
    ensures var users := InsertOne([], map["username" := Str("foo"), "hash" := Str("bar")]).store;
      var updated := UpdateOne(users, [("username", Str("foo"))], map["token" := Str("123")]);
      && updated.modifiedCount == 1
      && FindOne(updated.store, [("username", Str("foo"))])
         == Some(map["username" := Str("foo"), "hash" := Str("bar"), "token" := Str("123")])
  {
    var users := InsertOne([], map["username" := Str("foo"), "hash" := Str("bar")]).store;
    var q := [("username", Str("foo"))];
    assert IsFirstMatch(users, q, 0);
    UpdateThenFind(users, q, map["token" := Str("123")]);
    assert Merge(users[0], map["token" := Str("123")])
      == map["username" := Str("foo"), "hash" := Str("bar"), "token" := Str("123")];
  }

  /** "update does not fail if no matching query". */
  lemma UpdateNotFound()
    ensures UpdateOne([], [("username", Str("foo"))], map["foo" := Str("baz")]) == UpdateResult([], 0)
  {
  }

  /** "deletes": after deleting the only record, it is not found. */
  lemma Deletes()
    ensures var users := InsertOne([], map["username" := Str("foo"), "hash" := Str("bar")]).store;
      FindOne(DeleteOne(users, [("username", Str("foo"))]).store, [("username", Str("foo"))]) == None
  {
  }
}

=== FILE: js.dfy ===
/** The slice of JavaScript value semantics the server code relies on:
    primitive values, truthiness (`!x`, `a && b`), property reads that
    yield `undefined` for a missing key, and the string conversion a
    template literal (`${x}`) applies. Numbers are the safe integers: every
    integer of magnitude at most 2^53 - 1 is exact in a JavaScript number,
    and its template-literal text is its plain decimal digits. */
module Js {

  datatype Option<+T> = None | Some(value: T)

  datatype Result<+T, +E> = Success(value: T) | Failure(error: E)

  /** `Number.MAX_SAFE_INTEGER`, 2^53 - 1. */
  const MaxSafeInteger: int := 0x1F_FFFF_FFFF_FFFF

  /** An integer a JavaScript number holds exactly. */
  type SafeInteger = n: int | -MaxSafeInteger <= n <= MaxSafeInteger

  /** A primitive JavaScript value. Strict equality `===` on these is
      structural equality, which is what Dafny's `==` gives. */
  datatype Value = Undefined | Null | Bool(b: bool) | Num(n: SafeInteger) | Str(s: string)

  /** JavaScript truthiness: `undefined`, `null`, `false`, `0` and `""` are falsy. */
  predicate Truthy(v: Value)
  {
    match v
    case Undefined => false
    case Null => false
    case Bool(b) => b
    case Num(n) => n != 0
    case Str(s) => s != ""
  }

  /** A plain object whose fields hold primitive values. */
  type Record = map<string, Value>

  /** `obj[key]`: a missing property reads as `undefined`. */
  function Get(r: Record, key: string): Value
  {
    if key in r then r[key] else Undefined
  }

  predicate IsDigit(c: char)
  {
    '0' <= c <= '9'
  }

  function Digit(d: int): (c: char)
    requires 0 <= d < 10
    ensures IsDigit(c) && c as int - '0' as int == d
  {
    (d + '0' as int) as char
  }

  /** Decimal digits of a natural number, most significant first, no leading zeros. */
  function Decimal(n: nat): (s: string)
    ensures 0 < |s|
    ensures forall i :: 0 <= i < |s| ==> IsDigit(s[i])
    ensures s[0] == '0' ==> n == 0
  {
    if n < 10 then [Digit(n)] else Decimal(n / 10) + [Digit(n % 10)]
  }

  /** Reads a string of decimal digits back as a number. */
  function ParseDecimal(s: string): nat
    requires forall i :: 0 <= i < |s| ==> IsDigit(s[i])
  {
    if |s| == 0 then 0
    else
      assert IsDigit(s[|s| - 1]);
      ParseDecimal(s[..|s| - 1]) * 10 + (s[|s| - 1] as int - '0' as int)
  }

  /** Parses the text `String(n)` produces for an integer. */
  function ParseInteger(s: string): Option<int>
  {
    if 0 < |s| && s[0] == '-' && forall i :: 1 <= i < |s| ==> IsDigit(s[i]) then
      var magnitude: int := ParseDecimal(s[1..]);
      Some(-magnitude)
    else if forall i :: 0 <= i < |s| ==> IsDigit(s[i]) then
      Some(ParseDecimal(s))
    else
      None
  }

  /** `${v}`: the string a template literal substitutes for a primitive value. */
  function Stringify(v: Value): string
  {
    match v
    case Undefined => "undefined"
    case Null => "null"
    case Bool(b) => if b then "true" else "false"
    case Num(n) => if n < 0 then "-" + Decimal(-n) else Decimal(n)
    case Str(s) => s
  }

  /** `sep` occurs in `s` starting at position `i`. */
  predicate OccursAt(s: string, sep: string, i: int)
  {
    0 <= i && i + |sep| <= |s| && s[i..i + |sep|] == sep
  }

  /** The first occurrence of `sep` in `s` at or after `from`. */
  function IndexOf(s: string, sep: string, from: nat): (r: Option<nat>)
    ensures r.Some? ==> from <= r.value && OccursAt(s, sep, r.value)
    ensures r.Some? ==> forall j :: from <= j < r.value ==> !OccursAt(s, sep, j)
    ensures r.None? ==> forall j :: from <= j ==> !OccursAt(s, sep, j)
    decreases |s| - from
  {
    if |s| < from + |sep| then None
    else if s[from..from + |sep|] == sep then Some(from)
    else IndexOf(s, sep, from + 1)
  }

  /** `s.split(sep)[1]` for a non-empty separator: the text between the first
      and the second occurrence of `sep` (or the end of `s`), and `undefined`
      (here `None`) when `sep` does not occur. */
  function SplitSecond(s: string, sep: string): (r: Option<string>)
    requires 0 < |sep|
    ensures r.None? <==> forall j :: !OccursAt(s, sep, j)
    ensures r.Some? ==> exists i :: SplitsAt(s, sep, i, r.value)
  {
    match IndexOf(s, sep, 0)
    case None => None
    case Some(i) =>
      var rest := s[i + |sep|..];
      match IndexOf(rest, sep, 0)
      case None =>
        SecondPieceAtEnd(s, sep, i);
        Some(rest)
      case Some(k) =>
        SecondPieceBeforeNext(s, sep, i, k);
        Some(rest[..k])
  }

  /** An occurrence in a suffix is an occurrence in the whole string, shifted. */
  lemma OccursInSuffix(s: string, sep: string, m: int, j: int)
    requires 0 <= m <= |s| && 0 <= j
    ensures OccursAt(s[m..], sep, j) <==> OccursAt(s, sep, j + m)
  {
    if j + |sep| <= |s| - m {
      assert s[m..][j..j + |sep|] == s[j + m..j + m + |sep|];
    }
  }

  lemma SecondPieceAtEnd(s: string, sep: string, i: nat)
    requires IndexOf(s, sep, 0) == Some(i)
    requires IndexOf(s[i + |sep|..], sep, 0).None?
    ensures SplitsAt(s, sep, i, s[i + |sep|..])
  {
    forall j | i + |sep| <= j < |s| ensures !OccursAt(s, sep, j) {
      OccursInSuffix(s, sep, i + |sep|, j - i - |sep|);
    }
  }

  lemma SecondPieceBeforeNext(s: string, sep: string, i: nat, k: nat)
    requires IndexOf(s, sep, 0) == Some(i)
    requires IndexOf(s[i + |sep|..], sep, 0) == Some(k)
    ensures SplitsAt(s, sep, i, s[i + |sep|..][..k])
  {
    var m := i + |sep|;
    forall j | m <= j < m + k ensures !OccursAt(s, sep, j) {
      OccursInSuffix(s, sep, m, j - m);
    }
    OccursInSuffix(s, sep, m, k);
    assert s[m..m + k] == s[m..][..k];
  }

  /** `piece` is the second piece of `s` split at `sep`, whose first
      occurrence is at `i`: it follows that occurrence, no further
      occurrence starts inside it, and it ends at the next occurrence or at
      the end of `s`. */
  predicate SplitsAt(s: string, sep: string, i: int, piece: string)
  {
    && OccursAt(s, sep, i)
    && (forall j :: 0 <= j < i ==> !OccursAt(s, sep, j))
    && i + |sep| + |piece| <= |s|
    && s[i + |sep|..i + |sep| + |piece|] == piece
    && (forall j :: i + |sep| <= j < i + |sep| + |piece| ==> !OccursAt(s, sep, j))
    && (i + |sep| + |piece| == |s| || OccursAt(s, sep, i + |sep| + |piece|))
  }

  /** Splitting `sep + t` at `sep` gives back `t`, when `t` does not itself
      contain `sep`. */
  lemma SplitPrefixed(sep: string, t: string)
    requires 0 < |sep|
    requires forall j :: !OccursAt(t, sep, j)
    ensures SplitSecond(sep + t, sep) == Some(t)
  {
    var s := sep + t;
    assert OccursAt(s, sep, 0);
    assert IndexOf(s, sep, 0) == Some(0);
    assert s[|sep|..] == t;
  }

  lemma {:induction false} DecimalRoundTrip(n: nat)
    ensures ParseDecimal(Decimal(n)) == n
  {
    if n >= 10 {
      var s := Decimal(n);
      assert s[..|s| - 1] == Decimal(n / 10);
      DecimalRoundTrip(n / 10);
    }
  }

  /** The text a template literal produces for a safe integer reads back as
      that integer. */
  lemma NumberRoundTrip(n: SafeInteger)
    ensures ParseInteger(Stringify(Num(n))) == Some(n)
  {
    if n < 0 {
      var s := Stringify(Num(n));
      assert s[1..] == Decimal(-n);
      DecimalRoundTrip(-n);
    } else {
      DecimalRoundTrip(n);
    }
  }
}

=== FILE: jwt.dfy ===
/** The JSON Web Token routes: the signup and login handlers over the user
    store, and the decision of the middleware that guards `/jwt/login` (GET)
    and `/jwt/secure`.

    bcrypt and jsonwebtoken are outside the model: their four calls are the
    fields of a `Crypto` value, about which nothing is assumed unless a
    lemma says so (`RejectsMissingToken` is the one fact about `jwt.verify`
    the middleware lemmas rely on). */
module JwtRoutes {
  import opened Js
  import opened Utils
  import opened MemoryStore

  /** `SALT_ROUNDS`, the bcrypt cost factor. */
  const SaltRounds: int := 1

  const RequiredMessage: string := "Username and password are both required."

  /** The library calls, with `process.env.JWT_SECRET` fixed inside them.
      - `hash(password, rounds)`: `bcrypt.hash(...).catch(console.error)`, so a
        failed hash shows up as `undefined`;
      - `compare(password, hash)`: `bcrypt.compare`;
      - `sign(username, expiresIn)`: `jwt.sign({ username }, secret, { expiresIn })`;
      - `verify(token)`: `jwt.verify(token, secret).username`, or `None` when
        verification throws (bad signature, expired, malformed, missing; see
        `RejectsMissingToken`). */
  datatype Crypto = Crypto(
    hash: (Value, int) -> Value,
    compare: (Value, Value) -> bool,
    sign: (Value, Value) -> string,
    verify: Value -> Option<Value>)

  /** What a handler leaves in the store and what it resolves to. */
  datatype Outcome = Outcome(users: Store, response: Response)

  function Username(body: Record): Value { Get(body, "username") }

  function Password(body: Record): Value { Get(body, "password") }

  /** `{ username }`, the query both handlers look users up with. */
  function ByUsername(username: Value): Query { [("username", username)] }

  /** Some record of the store has this username. */
  predicate HasUser(users: Store, username: Value)
  {
    exists i :: 0 <= i < |users| && Get(users[i], "username") == username
  }

  lemma HasUserIsMatch(users: Store, username: Value)
    ensures HasUser(users, username) <==> !NoMatch(users, ByUsername(username))
  {
    if HasUser(users, username) {
      var i :| 0 <= i < |users| && Get(users[i], "username") == username;
      assert Matches(users[i], ByUsername(username));
    }
  }

  /** The record signup stores: the username and the hash, never the password. */
  function NewUser(username: Value, hash: Value): (r: Record)
    ensures r.Keys == {"username", "hash"} && "password" !in r
  {
    map["username" := username, "hash" := hash]
  }

  /** `handleSignUp(body, users)`. */
  function SignUp(body: Record, users: Store, tokenExpiration: Option<string>, crypto: Crypto): (r: Outcome)
    ensures !(Truthy(Username(body)) && Truthy(Password(body))) ==>
      r == Outcome(users, Response(Str(RequiredMessage), Num(401), Undefined))
    ensures Truthy(Username(body)) && Truthy(Password(body)) && HasUser(users, Username(body)) ==>
      r == Outcome(users, Response(Str("Username " + Stringify(Username(body)) + " is unavailable!"), Num(400), Undefined))
    ensures Truthy(Username(body)) && Truthy(Password(body)) && !HasUser(users, Username(body)) ==>
      && r.users == users + [NewUser(Username(body), crypto.hash(Password(body), SaltRounds))]
      && r.response == Response(Undefined, Num(200), Str(crypto.sign(Username(body), TokenExp(tokenExpiration))))
    ensures r.response.status == Num(200) <==> r.users != users
  {
    var username := Username(body);
    var password := Password(body);
    if !Truthy(username) || !Truthy(password) then
      Outcome(users, MakeResponse(map["message" := Str(RequiredMessage), "status" := Num(401)]))
    else
      HasUserIsMatch(users, username);
      match FindOne(users, ByUsername(username))
      case Some(_) =>
        Outcome(users, MakeResponse(map[
          "message" := Str("Username " + Stringify(username) + " is unavailable!"),
          "status" := Num(400)]))
      case None =>
        var hash := crypto.hash(password, SaltRounds);
        var inserted := InsertOne(users, NewUser(username, hash));
        var token := crypto.sign(username, TokenExp(tokenExpiration));
        assert |inserted.store| != |users|;
        Outcome(inserted.store, MakeResponse(map["token" := Str(token)]))
  }

  /** `handleLogin(body, users)`. Login only reads the store. */
  function Login(body: Record, users: Store, tokenExpiration: Option<string>, crypto: Crypto): (r: Outcome)
    ensures r.users == users
    ensures !(Truthy(Username(body)) && Truthy(Password(body))) ==>
      r.response == Response(Str(RequiredMessage), Num(401), Undefined)
    ensures Truthy(Username(body)) && Truthy(Password(body)) && !HasUser(users, Username(body)) ==>
      r.response == Response(Str("User " + Stringify(Username(body)) + " does not exist"), Num(400), Undefined)
    ensures r.response.status == Num(200) <==>
      && Truthy(Username(body)) && Truthy(Password(body))
      && exists i :: IsFirstMatch(users, ByUsername(Username(body)), i)
           && crypto.compare(Password(body), Get(users[i], "hash"))
    ensures r.response.status == Num(200) ==>
      r.response == Response(Undefined, Num(200), Str(crypto.sign(Username(body), TokenExp(tokenExpiration))))
  {
    var username := Username(body);
    var password := Password(body);
    if !Truthy(username) || !Truthy(password) then
      Outcome(users, MakeResponse(map["message" := Str(RequiredMessage), "status" := Num(401)]))
    else
      HasUserIsMatch(users, username);
      match FindOne(users, ByUsername(username))
      case None =>
        Outcome(users, MakeResponse(map[
          "message" := Str("User " + Stringify(username) + " does not exist"),
          "status" := Num(400)]))
      case Some(user) =>
        if !crypto.compare(password, Get(user, "hash")) then
          Outcome(users, MakeResponse(map[
            "message" := Str("Wrong password for user " + Stringify(username)),
            "status" := Num(401)]))
        else
          var token := crypto.sign(username, TokenExp(tokenExpiration));
          Outcome(users, MakeResponse(map["token" := Str(token)]))
  }

  /** No two records share a username. */
  predicate UniqueUsernames(users: Store)
  {
    forall i, j :: 0 <= i < j < |users| ==> Get(users[i], "username") != Get(users[j], "username")
  }

  /** Signup, run one request at a time, never creates a duplicate username,
      although `insertOne` itself would accept one. */
  lemma SignUpKeepsUsernamesUnique(body: Record, users: Store, tokenExpiration: Option<string>, crypto: Crypto)
    requires UniqueUsernames(users)
    ensures UniqueUsernames(SignUp(body, users, tokenExpiration, crypto).users)
  {
    var r := SignUp(body, users, tokenExpiration, crypto);
    if r.users != users {
      forall i, j | 0 <= i < j < |r.users|
        ensures Get(r.users[i], "username") != Get(r.users[j], "username")
      {
        if j == |users| {
          assert r.users[i] == users[i];
        }
      }
    }
  }

  /** Once a username is signed up, every later signup for it is refused with
      400 and leaves the store as it is. */
  lemma SecondSignUpConflicts(first: Record, second: Record, users: Store, tokenExpiration: Option<string>, crypto: Crypto)
    requires SignUp(first, users, tokenExpiration, crypto).response.status == Num(200)
    requires Username(second) == Username(first) && Truthy(Password(second))
    ensures var after := SignUp(first, users, tokenExpiration, crypto).users;
      SignUp(second, after, tokenExpiration, crypto)
      == Outcome(after, Response(Str("Username " + Stringify(Username(first)) + " is unavailable!"), Num(400), Undefined))
  {
    var after := SignUp(first, users, tokenExpiration, crypto).users;
    assert Get(after[|users|], "username") == Username(first);
  }

  /** A user who has just signed up can log in with the same password, provided
      bcrypt's compare accepts a password against its own hash. */
  lemma SignUpThenLogin(body: Record, users: Store, tokenExpiration: Option<string>, crypto: Crypto)
    requires SignUp(body, users, tokenExpiration, crypto).response.status == Num(200)
    requires crypto.compare(Password(body), crypto.hash(Password(body), SaltRounds))
    ensures var after := SignUp(body, users, tokenExpiration, crypto).users;
      Login(body, after, tokenExpiration, crypto).response
      == Response(Undefined, Num(200), Str(crypto.sign(Username(body), TokenExp(tokenExpiration))))
  {
    var after := SignUp(body, users, tokenExpiration, crypto).users;
    var q := ByUsername(Username(body));
    HasUserIsMatch(users, Username(body));
    assert IsFirstMatch(after, q, |users|);
  }

  /** A password bcrypt rejects is refused with 401, and nothing is issued. */
  lemma WrongPasswordRefused(body: Record, users: Store, tokenExpiration: Option<string>, crypto: Crypto)
    requires Truthy(Username(body)) && Truthy(Password(body))
    requires HasUser(users, Username(body))
    requires !crypto.compare(Password(body), Get(FindOne(users, ByUsername(Username(body))).value, "hash"))
    ensures Login(body, users, tokenExpiration, crypto)
      == Outcome(users, Response(Str("Wrong password for user " + Stringify(Username(body))), Num(401), Undefined))
  {
    HasUserIsMatch(users, Username(body));
  }

  // ---------------------------------------------------------------------------
  // jwtMiddleware
  // ---------------------------------------------------------------------------

  datatype Rejection = HeaderRequired | Unauthorized

  /** One call of `next`: `next()` after setting `req.user`, or `next(error)`
      with `error.statusCode`. */
  datatype NextCall = Proceed(user: Value) | Reject(statusCode: int, reason: Rejection)

  /** `authorization.split('Bearer ')[1]` for a present header. */
  function BearerPart(authorization: string): Value
  {
    match SplitSecond(authorization, "Bearer ")
    case Some(t) => Str(t)
    case None => Undefined
  }

  /** The `try` block and its `catch`. On a missing header, `undefined.split`
      throws, and the `catch` turns that into a 403 as well. */
  function TryVerify(authorization: Option<string>, crypto: Crypto): (c: NextCall)
    ensures c.Reject? ==> c == Reject(403, Unauthorized)
    ensures c.Proceed? <==> authorization.Some? && crypto.verify(BearerPart(authorization.value)).Some?
    ensures c.Proceed? ==> c.user == crypto.verify(BearerPart(authorization.value)).value
  {
    match authorization
    case None => Reject(403, Unauthorized)
    case Some(h) =>
      match crypto.verify(BearerPart(h))
      case Some(username) => Proceed(username)
      case None => Reject(403, Unauthorized)
  }

  /** `jwtMiddleware` as written: the `if (!authorization)` branch calls
      `next(error)` and does not return, so control falls through to the
      `try` block, which calls `next` a second time. */
  function MiddlewareAsWritten(authorization: Option<string>, crypto: Crypto): (calls: seq<NextCall>)
    ensures 1 <= |calls| <= 2
    ensures |calls| == 2 <==> authorization.None? || authorization.value == ""
    ensures |calls| == 2 ==> calls[0] == Reject(403, HeaderRequired)
    ensures calls[|calls| - 1] == TryVerify(authorization, crypto)
  {
    var headerCheck :=
      if !Truthy(if authorization.Some? then Str(authorization.value) else Undefined)
      then [Reject(403, HeaderRequired)] else [];
    headerCheck + [TryVerify(authorization, crypto)]
  }

  /** Without a header the middleware hands the request on twice: once with
      the "header required" error and once with the error from the `catch`. */
  lemma MiddlewareCallsNextTwice(crypto: Crypto)
    ensures MiddlewareAsWritten(None, crypto) == [Reject(403, HeaderRequired), Reject(403, Unauthorized)]
  {
  }

  /** The middleware with `return` after `next(error)`: exactly one outcome.
      A missing or empty header is refused as such; otherwise the request
      proceeds as the verified username exactly when verification succeeds,
      and is refused with 403 when it does not. */
  function Middleware(authorization: Option<string>, crypto: Crypto): (c: NextCall)
    ensures authorization.None? || authorization.value == "" ==> c == Reject(403, HeaderRequired)
    ensures c.Proceed? <==> authorization.Some? && authorization.value != ""
                             && crypto.verify(BearerPart(authorization.value)).Some?
    ensures c.Proceed? ==> c.user == crypto.verify(BearerPart(authorization.value)).value
    ensures c.Reject? ==> c.statusCode == 403
  {
    if authorization.None? || authorization.value == "" then Reject(403, HeaderRequired)
    else TryVerify(authorization, crypto)
  }

  /** `jwt.verify` throws "jwt must be provided" for a falsy token: `undefined`
      (what the split yields without "Bearer ") and the empty string (what it
      yields for "Bearer " followed by nothing). */
  predicate RejectsMissingToken(crypto: Crypto)
  {
    crypto.verify(Undefined).None? && crypto.verify(Str("")).None?
  }

  /** A header without "Bearer " is refused with 403 by the corrected
      middleware. As written, an empty header is refused twice and any other
      such header once. */
  lemma NoBearerRefused(authorization: string, crypto: Crypto)
    requires RejectsMissingToken(crypto)
    requires forall j :: !OccursAt(authorization, "Bearer ", j)
    ensures Middleware(Some(authorization), crypto).Reject?
    ensures MiddlewareAsWritten(Some(authorization), crypto)
      == if authorization == "" then [Reject(403, HeaderRequired), Reject(403, Unauthorized)]
         else [Reject(403, Unauthorized)]
  {
    assert BearerPart(authorization) == Undefined;
  }

  /** "Bearer " with nothing after it is refused like no token at all. */
  lemma EmptyBearerRefused(crypto: Crypto)
    requires RejectsMissingToken(crypto)
    ensures Middleware(Some("Bearer "), crypto) == Reject(403, Unauthorized)
    ensures MiddlewareAsWritten(Some("Bearer "), crypto) == [Reject(403, Unauthorized)]
  {
    SplitPrefixed("Bearer ", "");
    assert "Bearer " + "" == "Bearer ";
  }

  /** With a non-empty header, the source and the corrected middleware agree. */
  lemma MiddlewareAgreesOnPresentHeader(authorization: string, crypto: Crypto)
    requires authorization != ""
    ensures MiddlewareAsWritten(Some(authorization), crypto) == [Middleware(Some(authorization), crypto)]
  {
  }
}

=== FILE: login.dfy ===
/** The plain login route: it checks that both credentials are present and
    echoes them back. */
module LoginRoute {
  import opened Js
  import Utils

  const RequiredMessage: string := "Username and password are both required."

  datatype Reply = Reply(message: Value, status: Value)

  /** `makeResponse(message, status = 200)`: the default applies when no
      status (`undefined`) is passed. */
  function MakeResponse(message: Value, status: Value): (r: Reply)
    ensures r.message == message
    ensures status == Undefined ==> r.status == Num(200)
    ensures status != Undefined ==> r.status == status
  {
    Reply(message, if status == Undefined then Num(200) else status)
  }

  /** This route's `makeResponse(message, status)` answers as the shared
      `makeResponse({ message, status })` does, on the two fields both build. */
  lemma MakeResponseAgreesWithUtils(message: Value, status: Value)
    ensures var shared := Utils.MakeResponse(map["message" := message, "status" := status]);
      MakeResponse(message, status) == Reply(shared.message, shared.status)
  {
    var options := map["message" := message, "status" := status];
    assert Get(options, "message") == message && Get(options, "status") == status;
  }

  /** The echo message for a pair of credentials. */
  function Echo(username: Value, password: Value): string
  {
    "Username: " + Stringify(username) + " | Password: " + Stringify(password)
  }

  /** `handleLogin(body)`: status 200 exactly when both fields are truthy,
      with the credentials echoed; 401 with the fixed message otherwise. */
  function HandleLogin(body: Record): (r: Reply)
    ensures r.status == Num(200) <==> Truthy(Get(body, "username")) && Truthy(Get(body, "password"))
    ensures r.status == Num(200) ==> r.message == Str(Echo(Get(body, "username"), Get(body, "password")))
    ensures r.status != Num(200) ==> r == Reply(Str(RequiredMessage), Num(401))
  {
    var username := Get(body, "username");
    var password := Get(body, "password");
    if Truthy(username) && Truthy(password) then MakeResponse(Str(Echo(username, password)), Undefined)
    else MakeResponse(Str(RequiredMessage), Num(401))
  }

  /** The echo starts with the username and ends with the password, so both
      can be read back from a successful reply. */
  lemma EchoFrames(username: string, password: string)
    ensures var m := Echo(Str(username), Str(password));
      && m[..10] == "Username: "
      && m[10..10 + |username|] == username
      && m[10 + |username|..23 + |username|] == " | Password: "
      && m[23 + |username|..] == password
  {
  }
}

=== FILE: random.dfy ===
/** `generateRandom(len)`: `len` random bytes, encoded as base64, with the
    characters '/', '+' and '=' removed, cut to at most `len` characters.
    The random bytes are a parameter. The base64 encoding is modelled so
    that the length of the result can be reasoned about. */
module RandomToken {

  type Byte = b: int | 0 <= b < 256

  // ---------------------------------------------------------------------------
  // Base64 (the standard alphabet, with '=' padding)
  // ---------------------------------------------------------------------------

  predicate IsAlphaNumeric(c: char)
  {
    'A' <= c <= 'Z' || 'a' <= c <= 'z' || '0' <= c <= '9'
  }

  predicate IsBase64Char(c: char)
  {
    IsAlphaNumeric(c) || c == '+' || c == '/'
  }

  /** Text made of base64 digits and padding. */
  predicate IsBase64Text(s: string)
  {
    forall i :: 0 <= i < |s| ==> IsBase64Char(s[i]) || s[i] == '='
  }

  /** The base64 digit for a 6-bit value. */
  function Base64Char(i: int): (c: char)
    requires 0 <= i < 64
    ensures IsBase64Char(c)
    ensures c != '=' && c != ' '
  {
    if i < 26 then ('A' as int + i) as char
    else if i < 52 then ('a' as int + (i - 26)) as char
    else if i < 62 then ('0' as int + (i - 52)) as char
    else if i == 62 then '+'
    else '/'
  }

  /** `Buffer.toString('base64')`: each group of three bytes becomes four
      digits; a final group of one or two bytes is padded with '='. */
  function Base64(bytes: seq<Byte>): (s: string)
    ensures |s| == 4 * ((|bytes| + 2) / 3)
    ensures IsBase64Text(s)
  {
    if |bytes| == 0 then ""
    else if |bytes| == 1 then
      [Base64Char(bytes[0] / 4), Base64Char(bytes[0] % 4 * 16), '=', '=']
    else if |bytes| == 2 then
      [Base64Char(bytes[0] / 4), Base64Char(bytes[0] % 4 * 16 + bytes[1] / 16),
       Base64Char(bytes[1] % 16 * 4), '=']
    else
      assert (|bytes| + 2) / 3 == (|bytes[3..]| + 2) / 3 + 1;
      Group(bytes[0], bytes[1], bytes[2]) + Base64(bytes[3..])
  }

  /** The four digits of a whole group of three bytes. */
  function Group(b0: Byte, b1: Byte, b2: Byte): (s: string)
    ensures |s| == 4 && IsBase64Text(s)
  {
    [Base64Char(b0 / 4), Base64Char(b0 % 4 * 16 + b1 / 16),
     Base64Char(b1 % 16 * 4 + b2 / 64), Base64Char(b2 % 64)]
  }

  // ---------------------------------------------------------------------------
  // The post-processing, over any encoded string
  // ---------------------------------------------------------------------------

  /** The characters the regular expression `/[/+=]/g` matches. */
  predicate IsStripped(c: char)
  {
    c == '/' || c == '+' || c == '='
  }

  /** `.replace(/[/+=]/g, '')`. */
  function Strip(s: string): (r: string)
    ensures |r| <= |s|
    ensures forall i :: 0 <= i < |r| ==> !IsStripped(r[i])
  {
    if |s| == 0 then "" else StripChar(s[0]) + Strip(s[1..])
  }

  function StripChar(c: char): string
  {
    if IsStripped(c) then "" else [c]
  }

  /** `.slice(0, len)`. */
  function Slice(s: string, len: nat): (r: string)
    ensures |r| <= len
    ensures r <= s
    ensures |r| == len || r == s
  {
    if len <= |s| then s[..len] else s
  }

  /** The post-processing of `generateRandom(len)`, applied to the encoded
      random bytes. */
  function PostProcess(encoded: string, len: nat): (r: string)
    ensures |r| <= len
    ensures forall i :: 0 <= i < |r| ==> !IsStripped(r[i])
    ensures r <= Strip(encoded)
    ensures |r| == len <==> len <= |Strip(encoded)|
    ensures |r| == len || r == Strip(encoded)
  {
    Slice(Strip(encoded), len)
  }

  /** A single character is deleted exactly when the pattern matches it.
      With `StripAppend` this fixes `Strip` on every string. */
  lemma StripOne(c: char)
    ensures Strip([c]) == if IsStripped(c) then "" else [c]
  {
    assert [c][1..] == "";
  }

  /** Stripping distributes over concatenation. */
  lemma {:induction false} StripAppend(a: string, b: string)
    ensures Strip(a + b) == Strip(a) + Strip(b)
  {
    if |a| == 0 {
      assert a + b == b;
    } else {
      assert (a + b)[0] == a[0];
      assert (a + b)[1..] == a[1..] + b;
      StripAppend(a[1..], b);
      calc {
        Strip(a + b);
        StripChar(a[0]) + Strip(a[1..] + b);
        StripChar(a[0]) + (Strip(a[1..]) + Strip(b));
        (StripChar(a[0]) + Strip(a[1..])) + Strip(b);
      }
    }
  }

  /** A string free of '/', '+' and '=' is left unchanged. */
  lemma {:induction false} StripKeepsPlain(s: string)
    requires forall i :: 0 <= i < |s| ==> !IsStripped(s[i])
    ensures Strip(s) == s
  {
    if |s| > 0 {
      StripKeepsPlain(s[1..]);
    }
  }

  /** Stripping base64 text leaves letters and digits only. */
  lemma {:induction false} StripBase64(s: string)
    requires IsBase64Text(s)
    ensures forall i :: 0 <= i < |Strip(s)| ==> IsAlphaNumeric(Strip(s)[i])
  {
    if |s| > 0 {
      StripBase64(s[1..]);
    }
  }

  /** Stripping twice is stripping once. */
  lemma StripIdempotent(s: string)
    ensures Strip(Strip(s)) == Strip(s)
  {
    StripKeepsPlain(Strip(s));
  }

  // ---------------------------------------------------------------------------
  // generateRandom as written
  // ---------------------------------------------------------------------------

  /** `generateRandom(len)`, where `random` stands for `crypto.randomBytes(len)`. */
  function GenerateRandomAsWritten(len: nat, random: seq<Byte>): (r: string)
    requires |random| == len
    ensures |r| <= len
    ensures forall i :: 0 <= i < |r| ==> !IsStripped(r[i])
    ensures forall i :: 0 <= i < |r| ==> IsAlphaNumeric(r[i])
    ensures r <= Strip(Base64(random))
    ensures |r| == len <==> len <= |Strip(Base64(random))|
    ensures |r| == len || r == Strip(Base64(random))
    ensures len % 3 != 0 ==> 0 < |r|
  {
    StripBase64(Base64(random));
    var r := PostProcess(Base64(random), len);
    assert len % 3 != 0 ==> 0 < |r| by {
      if len % 3 != 0 {
        IncompleteGroupKeepsDigit(random);
      }
    }
    r
  }

  /** A final group of one or two bytes always leaves a digit that stripping
      keeps: its second (or third) digit encodes at most four bits, so it is
      never '+' or '/'. A byte count that is not a multiple of three therefore
      never yields an empty token. */
  lemma {:induction false} IncompleteGroupKeepsDigit(bytes: seq<Byte>)
    requires |bytes| % 3 != 0
    ensures 0 < |Strip(Base64(bytes))|
  {
    if |bytes| < 3 {
      ShortGroupDigit(bytes);
    } else {
      var rest := bytes[3..];
      assert |rest| % 3 == |bytes| % 3 by {
        assert |bytes| == |rest| + 3;
      }
      StripAfterGroup(bytes);
      IncompleteGroupKeepsDigit(rest);
    }
  }

  /** Stripping the encoding keeps at least what stripping the rest keeps. */
  lemma StripAfterGroup(bytes: seq<Byte>)
    requires 3 <= |bytes|
    ensures |Strip(Base64(bytes))| >= |Strip(Base64(bytes[3..]))|
  {
    var s := Base64(bytes);
    WholeGroup(bytes);
    StripAppend(s[..4], s[4..]);
  }

  lemma ShortGroupDigit(bytes: seq<Byte>)
    requires 0 < |bytes| < 3
    ensures 0 < |Strip(Base64(bytes))|
  {
    LastDigitKept(Base64(bytes), |bytes|);
  }

  /** The encoding of three or more bytes is four digits, then the rest. */
  lemma WholeGroup(bytes: seq<Byte>)
    requires 3 <= |bytes|
    ensures Base64(bytes) == Base64(bytes)[..4] + Base64(bytes[3..])
  {
  }

  /** A letter or digit at position `k` survives stripping. */
  lemma LastDigitKept(s: string, k: nat)
    requires k < |s| && IsAlphaNumeric(s[k])
    ensures 0 < |Strip(s)|
  {
    assert s == s[..k] + [s[k]] + s[k + 1..];
    StripAppend(s[..k] + [s[k]], s[k + 1..]);
    StripAppend(s[..k], [s[k]]);
    assert [s[k]][1..] == [];
  }

  /** Three bytes whose base64 encoding is "++++". */
  function PlusGroups(k: nat): (r: seq<Byte>)
    ensures |r| == 3 * k
  {
    if k == 0 then [] else [251, 239, 190] + PlusGroups(k - 1)
  }

  /** One group of the three bytes encodes as "++++". */
  lemma PlusGroupBase64(rest: seq<Byte>)
    ensures Base64([251, 239, 190] + rest) == "++++" + Base64(rest)
  {
    var bytes: seq<Byte> := [251, 239, 190] + rest;
    assert bytes[0] == 251 && bytes[1] == 239 && bytes[2] == 190;
    assert bytes[3..] == rest;
  }

  lemma StripPluses()
    ensures Strip("++++") == ""
  {
    assert "++++"[1..] == "+++" && "+++"[1..] == "++" && "++"[1..] == "+" && "+"[1..] == "";
  }

  /** One group of the three bytes vanishes from the stripped encoding. */
  lemma StripPlusGroup(rest: seq<Byte>)
    ensures Strip(Base64([251, 239, 190] + rest)) == Strip(Base64(rest))
  {
    PlusGroupBase64(rest);
    StripAppend("++++", Base64(rest));
    StripPluses();
  }

  lemma PlusGroupsStep(k: nat, tail: seq<Byte>)
    requires 0 < k
    ensures PlusGroups(k) + tail == [251, 239, 190] + (PlusGroups(k - 1) + tail)
  {
  }

  lemma {:induction false} PlusGroupsEncoding(k: nat, tail: seq<Byte>)
    ensures Strip(Base64(PlusGroups(k) + tail)) == Strip(Base64(tail))
  {
    if k == 0 {
      assert PlusGroups(k) + tail == tail;
    } else {
      PlusGroupsStep(k, tail);
      StripPlusGroup(PlusGroups(k - 1) + tail);
      PlusGroupsEncoding(k - 1, tail);
    }
  }

  /** The comment in the source assumes the encoding always has at least
      `len` characters left after stripping. It need not: for the 50 bytes
      the bearer-token login asks for, these yield the one-character token
      "8". */
  lemma AsWrittenCanFallShort()
    ensures GenerateRandomAsWritten(50, PlusGroups(16) + [251, 239]) == "8"
    ensures GenerateRandomAsWritten(3, [251, 239, 190]) == ""
  {
    PlusGroupsEncoding(16, [251, 239]);
    ShortTail();
    StripPlusGroup([]);
    assert [251, 239, 190] + [] == [251, 239, 190];
  }

  /** The two bytes FB EF encode as "++8=", which strips to "8". */
  lemma ShortTail()
    ensures Strip(Base64([251, 239])) == "8"
  {
    assert Base64([251, 239]) == "++8=";
    assert Strip("++8=") == "8";
  }

  // ---------------------------------------------------------------------------
  // The corrected generator: base64url keeps every digit
  // ---------------------------------------------------------------------------

  /** Characters of the URL-safe base64 alphabet. */
  predicate IsUrlChar(c: char)
  {
    IsAlphaNumeric(c) || c == '-' || c == '_'
  }

  /** `Buffer.toString('base64url')` from the standard encoding: '+' becomes
      '-', '/' becomes '_', and the padding is dropped. */
  function UrlSafe(s: string): (r: string)
    ensures IsBase64Text(s) ==> forall i :: 0 <= i < |r| ==> IsUrlChar(r[i])
  {
    if |s| == 0 then ""
    else UrlChar(s[0]) + UrlSafe(s[1..])
  }

  function UrlChar(c: char): string
  {
    if c == '=' then "" else if c == '+' then "-" else if c == '/' then "_" else [c]
  }

  lemma {:induction false} UrlSafeAppend(a: string, b: string)
    ensures UrlSafe(a + b) == UrlSafe(a) + UrlSafe(b)
  {
    if |a| == 0 {
      assert a + b == b;
    } else {
      assert (a + b)[0] == a[0];
      assert (a + b)[1..] == a[1..] + b;
      UrlSafeAppend(a[1..], b);
      calc {
        UrlSafe(a + b);
        UrlChar(a[0]) + UrlSafe(a[1..] + b);
        UrlChar(a[0]) + (UrlSafe(a[1..]) + UrlSafe(b));
        (UrlChar(a[0]) + UrlSafe(a[1..])) + UrlSafe(b);
      }
    }
  }

  /** Without padding, every digit maps to exactly one character. */
  lemma {:induction false} UrlSafeKeepsLength(s: string)
    requires forall i :: 0 <= i < |s| ==> s[i] != '='
    ensures |UrlSafe(s)| == |s|
  {
    if |s| > 0 {
      UrlSafeKeepsLength(s[1..]);
    }
  }

  /** Every byte yields at least one URL-safe character. */
  lemma {:induction false} UrlSafeLength(bytes: seq<Byte>)
    ensures |UrlSafe(Base64(bytes))| >= |bytes|
  {
    var s := Base64(bytes);
    if |bytes| == 1 {
      assert s[1..][1..][1..][1..] == "";
      assert |UrlSafe(s[1..])| >= 1;
    } else if |bytes| == 2 {
      assert s[1..][1..][1..][1..] == "";
      assert |UrlSafe(s[1..][1..])| >= 1;
    } else if |bytes| >= 3 {
      var group := s[..4];
      assert s == group + Base64(bytes[3..]);
      UrlSafeAppend(group, Base64(bytes[3..]));
      UrlSafeKeepsLength(group);
      UrlSafeLength(bytes[3..]);
    }
  }

  /** `crypto.randomBytes(len).toString('base64url').slice(0, len)`: always
      exactly `len` characters, none of them '/', '+' or '='. */
  function GenerateRandom(len: nat, random: seq<Byte>): (r: string)
    requires |random| == len
    ensures |r| == len
    ensures forall i :: 0 <= i < |r| ==> IsUrlChar(r[i])
    ensures forall i :: 0 <= i < |r| ==> !IsStripped(r[i]) && r[i] != ' '
  {
    UrlSafeLength(random);
    Slice(UrlSafe(Base64(random)), len)
  }
}

=== FILE: services.dfy ===
/** The in-memory user store returned by `makeTestDbApi`, and `validateDbApi`,
    which checks that a store object offers the four operations every
    adapter must provide.

    The store is an ordered sequence of records. Every operation locates
    records by the FIRST key of its query object only. Stores are values:
    each operation returns the store it leaves behind together with what
    the JavaScript promise resolves to. */
module MemoryStore {
  import opened Js

  type Store = seq<Record>

  /** A query object, as its fields in `Object.keys` order (keys distinct). */
  type Query = seq<(string, Value)>

  /** What `entry[key] === query[key]` compares, for `key = Object.keys(query)[0]`. */
  datatype Filter = Filter(key: string, value: Value)

  /** The key is the query's first key. An empty query has first key
      `undefined`, which a property access turns into the name "undefined";
      the query itself has no such property, so the value is `undefined`. */
  function FirstKeyFilter(q: Query): Filter
  {
    if |q| == 0 then Filter("undefined", Undefined) else Filter(q[0].0, q[0].1)
  }

  predicate Matches(entry: Record, q: Query)
  {
    var f := FirstKeyFilter(q);
    Get(entry, f.key) == f.value
  }

  /** Index `i` holds the earliest record the query matches. */
  predicate IsFirstMatch(store: Store, q: Query, i: int)
  {
    && 0 <= i < |store|
    && Matches(store[i], q)
    && forall j :: 0 <= j < i ==> !Matches(store[j], q)
  }

  predicate NoMatch(store: Store, q: Query)
  {
    forall j :: 0 <= j < |store| ==> !Matches(store[j], q)
  }

  /** The linear scan of `Array.prototype.find`, from position `start` on. */
  function FindFrom(store: Store, q: Query, start: nat): (r: Option<nat>)
    requires start <= |store|
    ensures r.Some? ==> start <= r.value < |store| && Matches(store[r.value], q)
    ensures r.Some? ==> forall j :: start <= j < r.value ==> !Matches(store[j], q)
    ensures r.None? ==> forall j :: start <= j < |store| ==> !Matches(store[j], q)
    decreases |store| - start
  {
    if start == |store| then None
    else if Matches(store[start], q) then Some(start)
    else FindFrom(store, q, start + 1)
  }

  function FindIndex(store: Store, q: Query): (r: Option<nat>)
    ensures r.Some? <==> !NoMatch(store, q)
    ensures r.Some? ==> IsFirstMatch(store, q, r.value)
  {
    FindFrom(store, q, 0)
  }

  lemma FirstMatchUnique(store: Store, q: Query, i: int, k: int)
    requires IsFirstMatch(store, q, i) && IsFirstMatch(store, q, k)
    ensures i == k
  {
  }

  // ---------------------------------------------------------------------------
  // The four operations
  // ---------------------------------------------------------------------------

  datatype InsertResult = InsertResult(store: Store, inserted: Record)

  /** `insertOne(data)`: appends `data` and resolves to it. No key is checked
      for uniqueness. */
  function InsertOne(store: Store, data: Record): (r: InsertResult)
    ensures |r.store| == |store| + 1
    ensures r.store[..|store|] == store && r.store[|store|] == data
    ensures r.inserted == data
  {
    InsertResult(store + [data], data)
  }

  /** `findOne(query)`: the earliest record whose value at the query's first
      key equals the query's value there, or `null`. */
  function FindOne(store: Store, q: Query): (r: Option<Record>)
    ensures r.None? <==> NoMatch(store, q)
    ensures r.Some? ==> r.value in store && Matches(r.value, q)
    ensures forall i :: IsFirstMatch(store, q, i) ==> r == Some(store[i])
  {
    match FindIndex(store, q)
    case None => None
    case Some(i) => Some(store[i])
  }

  datatype UpdateResult = UpdateResult(store: Store, modifiedCount: nat)

  /** The object spread `{ ...entry, ...update }`: fields of `update` win. */
  function Merge(entry: Record, update: Record): (m: Record)
    ensures m.Keys == entry.Keys + update.Keys
    ensures forall k :: k in update ==> m[k] == update[k]
    ensures forall k :: k in entry && k !in update ==> m[k] == entry[k]
  {
    entry + update
  }

  /** `updateOne(query, update)`: replaces the first matching record by its
      merge with `update` and reports one modification, or reports none and
      changes nothing. */
  function UpdateOne(store: Store, q: Query, update: Record): (r: UpdateResult)
    ensures |r.store| == |store|
    ensures r.modifiedCount == 1 <==> !NoMatch(store, q)
    ensures r.modifiedCount == 0 <==> NoMatch(store, q)
    ensures NoMatch(store, q) ==> r.store == store
    ensures forall i :: 0 <= i < |store| ==>
      r.store[i] == (if IsFirstMatch(store, q, i) then Merge(store[i], update) else store[i])
  {
    match FindIndex(store, q)
    case None => UpdateResult(store, 0)
    case Some(i) => UpdateResult(store[i := Merge(store[i], update)], 1)
  }

  /** `mockDb.filter(entry => entry[key] !== query[key])`: the records that do
      not match, each as often as before, in their original order (see
      `RemoveAppend`). */
  function Remove(store: Store, q: Query): (r: Store)
    ensures |r| <= |store|
    ensures forall e :: multiset(r)[e] == (if Matches(e, q) then 0 else multiset(store)[e])
    ensures forall e :: e in r <==> e in store && !Matches(e, q)
    ensures NoMatch(store, q) ==> r == store
  {
    if |store| == 0 then []
    else
      assert store == [store[0]] + store[1..];
      if Matches(store[0], q) then Remove(store[1..], q)
      else [store[0]] + Remove(store[1..], q)
  }

  /** The filter works record by record: filtering a concatenation filters
      each part and keeps them in order. With `Remove([], q) == []` and the
      one-record case this fixes the order of the result. */
  lemma {:induction false} RemoveAppend(a: Store, b: Store, q: Query)
    ensures Remove(a + b, q) == Remove(a, q) + Remove(b, q)
  {
    if |a| == 0 {
      assert a + b == b;
    } else {
      assert (a + b)[0] == a[0];
      assert (a + b)[1..] == a[1..] + b;
      RemoveAppend(a[1..], b, q);
    }
  }

  /** A single record is kept exactly when it does not match. */
  lemma RemoveOne(e: Record, q: Query)
    ensures Remove([e], q) == if Matches(e, q) then [] else [e]
  {
    assert [e][1..] == [];
  }

  datatype DeleteResult = DeleteResult(store: Store, deletedCount: nat)

  /** `deleteOne(query)`: removes EVERY matching record, and reports
      `deletedCount: 1` whether or not anything matched. */
  function DeleteOne(store: Store, q: Query): (r: DeleteResult)
    ensures r.deletedCount == 1
    ensures NoMatch(r.store, q)
    ensures forall e :: multiset(r.store)[e] == (if Matches(e, q) then 0 else multiset(store)[e])
    ensures forall e :: e in r.store <==> e in store && !Matches(e, q)
    ensures NoMatch(store, q) ==> r.store == store
  {
    DeleteResult(Remove(store, q), 1)
  }

  // ---------------------------------------------------------------------------
  // Properties relating the operations
  // ---------------------------------------------------------------------------

  /** `findOne` on an empty store resolves to `null`, whatever the query. */
  lemma FindOnEmpty(q: Query)
    ensures FindOne([], q) == None
  {
  }

  /** Keys of a query after the first are ignored. */
  lemma FindIgnoresLaterKeys(store: Store, field: (string, Value), rest: Query)
    ensures FindOne(store, [field] + rest) == FindOne(store, [field])
  {
    assert FirstKeyFilter([field] + rest) == FirstKeyFilter([field]);
    forall e ensures Matches(e, [field] + rest) == Matches(e, [field]) {
    }
    var i := FindIndex(store, [field] + rest);
    var k := FindIndex(store, [field]);
    if i.Some? {
      assert k.Some?;
      FirstMatchUnique(store, [field], i.value, k.value);
    }
  }

  /** After `insertOne(data)`, finding by any field of `data` yields `data`,
      unless an earlier record already had the same value there: duplicates
      are not rejected, and `findOne` keeps returning the earliest one. */
  lemma InsertThenFind(store: Store, data: Record, k: string)
    requires k in data
    ensures var q := [(k, data[k])];
      FindOne(InsertOne(store, data).store, q)
      == (if NoMatch(store, q) then Some(data) else FindOne(store, q))
  {
    var q := [(k, data[k])];
    var s' := InsertOne(store, data).store;
    if NoMatch(store, q) {
      assert IsFirstMatch(s', q, |store|);
    } else {
      var i := FindIndex(store, q).value;
      assert IsFirstMatch(s', q, i);
    }
  }

  /** On a fresh store, a record is found by each of its fields. */
  lemma InsertIntoEmptyThenFind(data: Record, k: string)
    requires k in data
    ensures FindOne(InsertOne([], data).store, [(k, data[k])]) == Some(data)
  {
    InsertThenFind([], data, k);
  }

  /** After a successful `updateOne`, `findOne` with the same query sees the
      merged record, provided the update does not rewrite the queried field. */
  lemma UpdateThenFind(store: Store, q: Query, update: Record)
    requires !NoMatch(store, q)
    requires FirstKeyFilter(q).key !in update
    ensures var i := FindIndex(store, q).value;
      FindOne(UpdateOne(store, q, update).store, q) == Some(Merge(store[i], update))
  {
    var i := FindIndex(store, q).value;
    var s' := UpdateOne(store, q, update).store;
    assert s'[i] == Merge(store[i], update);
    assert Get(s'[i], FirstKeyFilter(q).key) == Get(store[i], FirstKeyFilter(q).key);
    assert IsFirstMatch(s', q, i);
  }

  /** After `deleteOne(query)`, `findOne(query)` resolves to `null`. */
  lemma DeleteThenFind(store: Store, q: Query)
    ensures FindOne(DeleteOne(store, q).store, q) == None
  {
  }

  /** Deleting twice is the same as deleting once. */
  lemma DeleteIdempotent(store: Store, q: Query)
    ensures DeleteOne(DeleteOne(store, q).store, q) == DeleteOne(store, q)
  {
  }

  /** Duplicate usernames are accepted: two inserts of the same record leave
      two copies. */
  lemma InsertAllowsDuplicates(store: Store, data: Record)
    ensures var s := InsertOne(InsertOne(store, data).store, data).store;
      |s| == |store| + 2 && s[|store|] == s[|store| + 1] == data
  {
  }

  // ---------------------------------------------------------------------------
  // validateDbApi
  // ---------------------------------------------------------------------------

  /** What `typeof` reports for a property of the api object, as far as the
      check cares. */
  datatype Kind = FunctionKind | OtherKind

  /** The api object: property name to the kind of its value; a missing
      property has `typeof` "undefined". */
  type Api = map<string, Kind>

  /** `['updateOne', 'findOne', 'insertOne', 'deleteOne']`, in that order. */
  const RequiredOperations: seq<string> := ["updateOne", "findOne", "insertOne", "deleteOne"]

  predicate IsFunction(api: Api, name: string)
  {
    name in api && api[name] == FunctionKind
  }

  /** `names[i]` is the first of `names` that is not a function. */
  predicate FirstMissing(api: Api, names: seq<string>, i: int)
    requires 0 <= i < |names|
  {
    !IsFunction(api, names[i]) && forall j :: 0 <= j < i ==> IsFunction(api, names[j])
  }

  /** The `forEach` over the required names: the first one that is not a
      function aborts with `Function <name> must be defined`. */
  function CheckAll(api: Api, names: seq<string>): (r: Option<string>)
    ensures r.None? <==> forall i :: 0 <= i < |names| ==> IsFunction(api, names[i])
    ensures r.Some? ==> (exists i :: 0 <= i < |names| && FirstMissing(api, names, i)
                                   && r.value == "Function " + names[i] + " must be defined")
  {
    if |names| == 0 then None
    else if !IsFunction(api, names[0]) then Some("Function " + names[0] + " must be defined")
    else
      var r := CheckAll(api, names[1..]);
      if r.Some? then
        var i :| 0 <= i < |names| - 1 && FirstMissing(api, names[1..], i)
          && r.value == "Function " + names[1..][i] + " must be defined";
        assert FirstMissing(api, names, i + 1);
        r
      else r
  }

  /** `validateDbApi(apiToTest)`: throws naming the first missing operation,
      otherwise returns its argument unchanged. */
  function ValidateDbApi(api: Api): (r: Result<Api, string>)
    ensures r.Success? <==> forall name :: name in RequiredOperations ==> IsFunction(api, name)
    ensures r.Success? ==> r.value == api
  {
    match CheckAll(api, RequiredOperations)
    case None => Success(api)
    case Some(message) => Failure(message)
  }

  /** The object `makeTestDbApi` returns. */
  const TestDbApi: Api := map[
    "insertOne" := FunctionKind, "findOne" := FunctionKind, "updateOne" := FunctionKind,
    "deleteOne" := FunctionKind, "closeConnection" := FunctionKind]

  /** The in-memory store passes `validateDbApi`. */
  lemma TestDbApiIsValid()
    ensures ValidateDbApi(TestDbApi) == Success(TestDbApi)
  {
  }
}

=== FILE: utils.dfy ===
/** The pure helpers of the server's utility module: the token lifetime,
    the response builder the JWT and bearer-token routes share, and the
    cookie accessor the tests use. Token generation is in `RandomToken`. */
module Utils {
  import opened Js

  const OneHourInSeconds: int := 60 * 60

  /** `getTokenExp()`: `process.env.TOKEN_EXPIRATION || ONE_HOUR_IN_SECONDS`.
      `tokenExpiration` is the environment variable, a string when set. A set,
      non-empty value is returned as the string it is; otherwise the number
      of seconds in an hour. */
  function TokenExp(tokenExpiration: Option<string>): (r: Value)
    ensures r == Num(3600) <==> tokenExpiration.None? || tokenExpiration.value == ""
    ensures r != Num(3600) ==> tokenExpiration.Some? && r == Str(tokenExpiration.value)
  {
    match tokenExpiration
    case Some(s) => if Truthy(Str(s)) then Str(s) else Num(OneHourInSeconds)
    case None => Num(OneHourInSeconds)
  }

  /** Whatever the environment holds, the lifetime handed to `jwt.sign` is
      truthy, so `expiresIn` is always set. */
  lemma TokenExpAlwaysSet(tokenExpiration: Option<string>)
    ensures Truthy(TokenExp(tokenExpiration))
  {
  }

  /** The object `makeResponse` builds: exactly these three fields. */
  datatype Response = Response(message: Value, status: Value, token: Value)

  /** `makeResponse({ message, token, status = 200 })`, applied to an options
      object. A default parameter applies when the field is `undefined`. */
  function MakeResponse(options: Record): (r: Response)
    ensures r.message == Get(options, "message") && r.token == Get(options, "token")
    ensures Get(options, "status") == Undefined ==> r.status == Num(200)
    ensures Get(options, "status") != Undefined ==> r.status == Get(options, "status")
  {
    var status := Get(options, "status");
    Response(Get(options, "message"), if status == Undefined then Num(200) else status, Get(options, "token"))
  }

  /** Fields other than `message`, `token` and `status` are dropped: the
      bearer-token login passes `expires_in`, and it never reaches the client. */
  lemma MakeResponseDropsOtherFields(options: Record, key: string, v: Value)
    requires key !in {"message", "token", "status"}
    ensures MakeResponse(options[key := v]) == MakeResponse(options)
  {
    assert Get(options[key := v], "message") == Get(options, "message");
    assert Get(options[key := v], "token") == Get(options, "token");
    assert Get(options[key := v], "status") == Get(options, "status");
  }

  /** `getCookie(res)`: the first `set-cookie` header, or `undefined` when the
      header is absent or empty. */
  function GetCookie(setCookie: Option<seq<string>>): (r: Option<string>)
    ensures r.Some? <==> setCookie.Some? && 0 < |setCookie.value|
    ensures r.Some? ==> r.value == setCookie.value[0]
  {
    match setCookie
    case Some(cookies) => if |cookies| == 0 then None else Some(cookies[0])
    case None => None
  }

  /** A missing header reads as an empty list (`|| []`). */
  lemma GetCookieMissingIsEmpty()
    ensures GetCookie(None) == GetCookie(Some([]))
  {
  }

  /** Only the first cookie matters: later ones never change the result. */
  lemma GetCookieIgnoresLater(cookies: seq<string>, later: seq<string>)
    requires 0 < |cookies|
    ensures GetCookie(Some(cookies + later)) == GetCookie(Some(cookies))
  {
  }
}
